=== FILE: README.md ===
# rcam frame operators in Dafny

This project models the per-frame stage logic of the rcam camera server
(`rcam/server/operators.py`). The server is a chain of Python generators. Each
generator keeps latched state across frames, reads one frame's `controls`
batch, issues device control changes, and edits the frame's metadata. Here
every generator is a pure step function `(state, batch, …) -> (state', …)`. A
backward fold `After(s, cs)` gives the state after a run of frames. Lemmas
about that fold state the latch properties.

Modules, one per stage or concern:

- `Values` covers the dynamically typed control/metadata values. It also holds
  the Python semantics the stages rely on: truthiness, `==` between
  bool/int/float, `dict.get` with a default, and `get(k) is not None`.
- `ControlSource` is the `control` generator. It merges the messages drained
  for a frame and numbers the frames.
- `Focus` is the `focus` generator: the capability probe, the lens control
  changes, and the latched `AfEnable`.
- `Owned` holds the `whitebalance` and `exposure` generators, which share one
  pattern.
- `Geometry` holds `fit_cropped` and the latching and scale-factor part of
  `fit_scaled`.
- `Publisher` is the `publisher` generator: statistics stripping, the
  frame-id text, and the delta/latch logic of the state update.
- `Text` covers suffix tests and the decimal text of the frame ordinal.
- `Formats` is the `image_dtypes` table as a format → element-width function.
- `Pipeline` runs focus, white balance and exposure on one frame. Their
  ownership of controls and metadata keys is disjoint.

The focus probe follows the corrected definition given under "Findings".
After a lens position disables auto-focus, only a batch giving `AfEnable`
changes the latched flag; `AfTrigger` starts a scan but never touches the flag
(rcam/server/operators.py:98-111, `Focus.ManualUntilEnabled`).

## Model

| member | source | states |
|---|---|---|
| `ControlSource.MergeKeys` | rcam/server/operators.py:37-42 | A key is in a frame's batch exactly when some message drained for that frame carries it; nothing drained gives the empty batch |
| `ControlSource.MergeLastWins` | rcam/server/operators.py:42 | For every key, the value in the batch comes from the last drained message that carries the key (successive `dict.update`) |
| `ControlSource.Merge` | rcam/server/operators.py:37-42 | Nothing drained gives the empty batch; every entry of the newest message overrides what came before |
| `ControlSource.DrainFrame` | rcam/server/operators.py:33-44 | The imperative drain loop builds exactly the left-to-right override of the drained messages and tags it with the given ordinal |
| `ControlSource.Control` | rcam/server/operators.py:30-44 | The generator yields one item per frame; item `n` has `idx == n` and carries the merge of frame `n`'s messages, or the empty batch when nothing was pending |
| `ControlSource.OrdinalsConsecutive` | rcam/server/operators.py:32 | Ordinals start at 0, go up by exactly 1, and are strictly increasing, so no frame is duplicated or reordered |
| `Focus.ProbeAsWrittenMissesIdleManual` | rcam/server/operators.py:83 | As written, a device reporting `AfState` Idle (0) and `AfMode` Manual (0) can focus, yet the probe's value is falsy |
| `Focus.ProbeAsWrittenDependsOnValues` | rcam/server/operators.py:83 | As written, two devices reporting the same keys can get opposite capability verdicts |
| `Focus.ProbeAsWritten` | rcam/server/operators.py:83 | As written, the probe is truthy iff the reported `AfState` or `AfMode` is truthy, and is `False` when neither is reported |
| `Focus.CanFocusDependsOnlyOnKeys` | rcam/server/operators.py:82-83 | The corrected capability probe depends only on which keys the device reports |
| `Focus.Probe` | rcam/server/operators.py:81-93 | Capability holds iff an auto-focus state or mode is reported. A capable device starts with enable set and `{AfMode: Auto, AfTrigger: Start}` issued; an incapable one issues nothing and starts disabled |
| `Focus.Requests` | rcam/server/operators.py:97-113 | Per key: `AfMode` is requested iff `AfEnable` or `LensPosition` is given. It is Manual when a lens position is given or enable is falsy, else Auto. `AfTrigger=Start` is requested iff enable is truthy or `AfTrigger` is truthy. `LensPosition` is requested iff given, with the given value. No other control is requested |
| `Focus.NextEnable` | rcam/server/operators.py:98-111 | A lens position latches `False` whatever else is in the batch. Otherwise a given `AfEnable` latches its value when truthy and `False` when falsy. Otherwise the flag is kept, and it never becomes truthy except from `AfEnable` |
| `Focus.Step` | rcam/server/operators.py:95-123 | Without capability, no `set_controls` call and metadata untouched. With capability, `metadata['AfEnable']` is the latched flag, and a call is made iff the change set is non-empty, carrying exactly that set. No other metadata key changes |
| `Focus.LensPositionTakesPrecedence` | rcam/server/operators.py:98-113 | A batch with `LensPosition` disables auto-focus, issues `AfMode=Manual` and the requested lens position, and reports `AfEnable=False`, even when the same batch has `AfEnable=True`. A truthy `AfTrigger` still adds `AfTrigger=Start` |
| `Focus.CapabilityFixed` | rcam/server/operators.py:83-95 | The capability fixed at start never changes over any run of frames |
| `Focus.EnablePersists` | rcam/server/operators.py:95-113 | The latched flag is unchanged across any run of frames giving neither `AfEnable` nor `LensPosition` |
| `Focus.ManualUntilEnabled` | rcam/server/operators.py:98-113 | After a frame that sets `LensPosition`, the flag stays `False` on every later frame until some batch gives `AfEnable` |
| `Focus.SilentWithoutCapability` | rcam/server/operators.py:115-121 | On a device without focus, no frame of any run calls `set_controls` or adds `AfEnable` to metadata |
| `Focus.ReportsLatchWithCapability` | rcam/server/operators.py:118-121 | On a focus-capable device, every frame's metadata `AfEnable` equals the flag latched after that frame |
| `Owned.Restrict` | rcam/server/operators.py:134 | The restricted batch has exactly the owned keys present in the frame's batch, with the batch's values |
| `Owned.Step` | rcam/server/operators.py:126-162 | White balance / exposure: a call is made iff some owned key is in the batch, carrying exactly those keys and values. The flag becomes the batch's enable value if present and is kept otherwise. It is written to metadata every frame, and no other metadata key changes |
| `Owned.EnablePersists` | rcam/server/operators.py:129-140 | The latched enable flag is unchanged across any run of frames whose batches omit the stage's enable key |
| `Owned.EnableIsLastGiven` | rcam/server/operators.py:149-160 | After any run of frames, the flag is the enable value of the last batch that carried one, or the initial value when none did |
| `Owned.DisabledOnlyOnRequest` | rcam/server/operators.py:129-160 | Both stages start with the flag `True`; it is falsy after a run only if some batch in the run gave a falsy enable value |
| `Owned.StagesDoNotInterfere` | rcam/server/operators.py:127-160 | The two stages own disjoint controls, and their metadata edits commute |
| `Pipeline.OwnershipDisjoint` | rcam/server/operators.py:97-160 | Focus, white balance and exposure set pairwise disjoint device controls and write distinct metadata keys |
| `Pipeline.ApplyControls` | rcam/server/operators.py:95-162 | On one frame, the focus latch is `Focus.Latch`'s and the focus call is made iff the device can focus and the change set is non-empty, carrying exactly that set. The white-balance and exposure calls are made iff the batch has an owned key, carrying exactly the owned part of the batch. `AwbEnable`/`AeEnable` report their latched flags, `AfEnable` reports the focus flag when capable and is left as it was otherwise. All other metadata is untouched, and the three calls' control sets are pairwise disjoint |
| `Geometry.Latch` | rcam/server/operators.py:245-248 | The enabled flag becomes `FitMode == mode` when `FitMode` is given and is kept otherwise. `Width`/`Height` latch whenever present, whatever the mode |
| `Geometry.EnabledPersists` | rcam/server/operators.py:245-246 | The enabled flag changes only on frames whose batch gives `FitMode` |
| `Geometry.TargetIsLastRequested` | rcam/server/operators.py:238-248 | The latched target width/height is the last one any batch requested, or `sys.maxsize` (unbounded) when none did |
| `Geometry.ExclusiveAfterFitMode` | rcam/server/operators.py:245-278 | After any frame giving `FitMode`, crop and scale are not both enabled |
| `Geometry.NeverBothEnabled` | rcam/server/operators.py:235-280 | Fed the same batches, crop and scale are never both enabled on any frame, once they start exclusive or once a batch has given `FitMode` |
| `Geometry.TruncHalf` | rcam/server/operators.py:258-259 | `int(x/2)` truncates toward zero: `2r <= x < 2r+2` for non-negative `x`, `2r-2 < x <= 2r` for negative `x` |
| `Geometry.CropRect` | rcam/server/operators.py:255-259 | A crop happens iff the target is smaller in some dimension. For non-negative targets the slice satisfies `0 <= x0 <= x1 <= W`, `x1-x0 == min(W, tw)`, the same for y, and it is centred with any odd pixel left over on the right/bottom |
| `Geometry.CropExample` | rcam/server/operators.py:255-259 | 1920×1080 cropped to 800×600 keeps columns 560..1360 and rows 240..840 |
| `Geometry.SliceLen` | rcam/server/operators.py:260 | A Python slice `[a:b]` of a length-`n` axis has length `b-a` for in-range bounds and never more than `n` |
| `Geometry.CropStep` | rcam/server/operators.py:241-262 | When disabled, the images are unchanged and no slice is applied. When enabled, the step succeeds iff the active image (`raw` if present, else `main`) exists and the target is an integer pair. A missing image is a `KeyError` for its key; a non-integer target is the comparison's error. On success the applied slice is `CropRect`'s centred rectangle for the image and target, and the active image becomes that slice's extent, `min(W,tw) × min(H,th)` for a non-negative target. Other image entries are never changed |
| `Geometry.CroppedCentred` | rcam/server/operators.py:255-260 | When an enabled crop's target cuts into the active image, the kept region lies inside the image, its left/right and top/bottom margins differ by at most one pixel, and the active image is exactly that region |
| `Geometry.ScaleFactor` | rcam/server/operators.py:287-290 | A scale factor exists iff the target is smaller in some dimension; there is no division error for a non-empty image |
| `Geometry.ScaleFits` | rcam/server/operators.py:287-290 | The uniform factor is in `[0, 1)`, the scaled image fits inside the target, and it touches the target in at least one dimension (aspect ratio preserved) |
| `Geometry.ScaleExample` | rcam/server/operators.py:290 | 1920×1080 scaled to fit 800×600 uses factor 5/12 (width-bound) |
| `Geometry.ScaleStep` | rcam/server/operators.py:273-293 | When disabled, the images are unchanged. When enabled, a missing active image is a `KeyError` for its key and a non-integer target an error. Otherwise the outcome follows `ScaleFactor`: its division error is raised, no factor leaves the images unchanged, and a factor `f` replaces the active image by `resize(image, f)`. Every other image entry is kept |
| `Geometry.ScaledToFit` | rcam/server/operators.py:281-291 | An enabled scale stage whose target cuts into a non-empty active image succeeds and resizes that image by a factor in `[0, 1)` that fits it inside the target |
| `Geometry.AtMostOneTransformation` | rcam/server/operators.py:250-291 | When crop and scale are not both enabled, a frame's images come out of at most one of the two transformations |
| `Text.DecimalText` | rcam/server/operators.py:192 | The frame id is a non-empty string of decimal digits with no leading zero |
| `Text.DecimalRoundTrip` | rcam/server/operators.py:192 | Reading the frame-id text back as a decimal number gives the ordinal |
| `Text.DecimalTextInjective` | rcam/server/operators.py:191-192 | Distinct ordinals never share a frame id |
| `Publisher.Strip` | rcam/server/operators.py:196-201 | The published metadata has exactly the frame's keys that do not end in `StatsOutput`, each with its original value |
| `Publisher.StripStats` | rcam/server/operators.py:196-201 | The copy-and-delete loop leaves exactly the keys not ending in `StatsOutput`, with their original values. The frame's own metadata value is untouched |
| `Publisher.RoundGain` | rcam/server/operators.py:222-223 | Rounding succeeds exactly on numbers. On an int or bool it gives an int equal to the input |
| `Publisher.Gains` | rcam/server/operators.py:221-223 | The colour gains unpack and round successfully iff `ColourGains` (default `(0.0, 0.0)`) is a pair of numbers; absent, both gains are the rounded zero |
| `Publisher.Track` | rcam/server/operators.py:212-230 | The update succeeds iff `AnalogueGain` and `ExposureTime` are present, `LensPosition` is present or its latch is 0, and the colour gains unpack to two numbers. A missing `AnalogueGain`, then `ExposureTime`, then (with a non-zero latch) `LensPosition` is a `KeyError` for that key, in that order. An update is sent only when non-empty, and only over the five tracked keys |
| `Publisher.TrackReportsChanges` | rcam/server/operators.py:214-227 | `AnalogueGain` and `ExposureTime` are reported, and latched, together iff either differs from its latch. `LensPosition`, `RedGain` and `BlueGain` are each reported and latched iff they differ. Unreported latches are kept |
| `Publisher.FirstFrameReportsNonZero` | rcam/server/operators.py:184-219 | From the all-zero initial latches, the first frame needs no `LensPosition`, and it reports gain/exposure iff either is non-zero and lens position iff it is non-zero |
| `Publisher.LatchesFollowFrame` | rcam/server/operators.py:214-227 | After a frame, every latch equals (by Python `==`) that frame's tracked value |
| `Publisher.SettledIsSilent` | rcam/server/operators.py:212-230 | Re-running the state update on the same frame sends nothing and keeps the latches |
| `Publisher.TrackDependsOnTracked` | rcam/server/operators.py:212-228 | The state update reads only `AnalogueGain`, `ExposureTime`, `LensPosition` and `ColourGains` |
| `Publisher.QuietWhileUnchanged` | rcam/server/operators.py:190-232 | After a frame is published, any number of following frames with identical tracked values send no state update at all |
| `Publisher.Run` | rcam/server/operators.py:190-232 | Over consecutive frames, a successful run yields one update slot per frame, the first being the first frame's state update |
| `Publisher.Step` | rcam/server/operators.py:190-209 | Each frame yields a metadata message and an image message sharing one frame id that reads back as the ordinal. The metadata is the frame's metadata minus keys ending in `StatsOutput`, the image is the encoded bytes, and the state update is computed from the published metadata |
| `Formats.ElementBytes` | rcam/server/operators.py:18-27 | Packed 8-bit colour formats view as 1-byte elements. Bayer formats view as 2-byte elements wide enough for their 10–16-bit samples. Any other format is a `KeyError` |

## Left out

- `capture` (rcam/server/operators.py:47-76) is device I/O with one in-flight asynchronous capture job. That double buffering overlaps device latency and is not sequential logic. In it, `'raw' in item` (:61) is always false, because the image entries are added after that test, so `ImageSize` always comes from the `main` configuration.
- `jpeg_encoder` is a call into the image library. The publisher takes the encoded bytes as input.
- The `cv2.resize` call is the `resize` parameter of `Geometry.ScaleStep`. Its pixel dimensions involve float rounding.
- `Geometry.ScaledToFit`: `resize` never fails in the model, so an enabled stage with a cutting target on a non-empty image always succeeds. The image library rejects a zero or negative factor (a `Width` or `Height` of 0 or below) and a result with a zero dimension; those failures are not modelled.
- `Geometry.ScaleStep`: the same holds, since the step's outcome for a factor `f` is whatever `resize(image, f)` gives, and `resize` is total.
- zmq polling and sending, and the JSON encoding of metadata, are out. Messages are returned values, and the drained messages are given as input.
- `round(x, 2)` on floats is the `round2` parameter of the publisher. IEEE rounding is not modelled.
- The optional libcamera import is replaced by the `AfMode`/`AfTrigger` datatypes. `PubSubCommands` (`rcam/server/commands.py`) is not part of this model: the two message kinds are constructors instead of command tags.
- Floats are exact rationals. NaN (never equal to itself) and float rounding of `(W ± cw)/2` are not modelled; the latter is exact for values below 2^53.
- `Geometry.CropStep`: a latched `Width`/`Height` that is a float is a `TypeError` in the model. Python would go on with float arithmetic.
- `Geometry.ScaleStep`: the same restriction to integer (or bool) targets applies.
- `Values.PyEq` compares tuples structurally, so a tuple holding `1` differs from one holding `1.0`. Python calls them equal.
- `Publisher.Gains` raises `TypeError` for any non-tuple `ColourGains`. Python unpacks any 2-element iterable and raises `ValueError` for other lengths. Only whether an error occurs is faithful.
- The array rank is not modelled. The geometry stages unpack a 3-D shape, and a 2-D raw array would fail there.
- The chaining order of the stages is set outside `operators.py`. `Pipeline.ApplyControls` runs focus, then white balance, then exposure. Because ownership is disjoint, the order only affects the order of the calls.
- In-place mutation of the frame's metadata dict is modelled as returning the new map.

## Findings

| source | as written | input that shows it | evidently intended | confidence | as-written member | corrected member |
|---|---|---|---|---|---|---|
| rcam/server/operators.py:83 | Focus capability is the truthiness of `mdata.get('AfState', False) or mdata.get('AfMode', False)`, and the initial `AfEnable` is that value | A focus-capable camera reporting `AfState` Idle (0) and `AfMode` Manual (0), libcamera's defaults before any auto-focus request | Capability means an auto-focus state or mode is reported at all, whatever its value; the initial flag is `True` | medium, not executed | `Focus.ProbeAsWrittenMissesIdleManual` | `Focus.Probe` |

`Focus.ProbeAsWritten` is the probe as written. `Focus.ProbeAsWrittenDependsOnValues` shows that its verdict changes with the reported values. `Focus.CanFocusDependsOnlyOnKeys` shows that the corrected probe, used by `Focus.Probe`, depends only on the reported keys.

=== FILE: control_source.dfy ===
/** The control source: one item per frame, carrying the frame ordinal and the
    batch obtained by merging every control message drained for that frame.
    The non-blocking poll is replaced by the list of messages it returned.
 */
module ControlSource {
  import opened Values

  /** The item the control source yields: `{'idx': n, 'controls': batch}`. */
  datatype Item = Item(idx: nat, controls: Batch)

  /** Successive `dict.update` of an initially empty batch by each message in
      arrival order: a key is present when some message carries it, and its
      value is the one from the last message that carries it. */
  function Merge(msgs: seq<Batch>): (b: Batch)
    ensures |msgs| == 0 ==> b == map[]
    ensures |msgs| > 0 ==> forall k :: k in msgs[|msgs| - 1] ==> k in b && b[k] == msgs[|msgs| - 1][k]
    decreases |msgs|
  {
    if |msgs| == 0 then map[]
    else Merge(msgs[..|msgs| - 1]) + msgs[|msgs| - 1]
  }

  /** For each key, the last message that carries it supplies its value. */
  lemma {:induction false} MergeLastWins(msgs: seq<Batch>, k: string, i: nat)
    requires i < |msgs| && k in msgs[i]
    requires forall j :: i < j < |msgs| ==> k !in msgs[j]
    ensures k in Merge(msgs) && Merge(msgs)[k] == msgs[i][k]
    decreases |msgs|
  {
    var last := |msgs| - 1;
    var earlier := msgs[..last];
    assert Merge(msgs) == Merge(earlier) + msgs[last];
    if i < last {
      assert k !in msgs[last];
      assert forall j :: i < j < |earlier| ==> earlier[j] == msgs[j];
      MergeLastWins(earlier, k, i);
    }
  }

  /** A key is in the batch exactly when some drained message carries it. */
  lemma {:induction false} MergeKeys(msgs: seq<Batch>, k: string)
    ensures k in Merge(msgs) <==> exists i :: 0 <= i < |msgs| && k in msgs[i]
    decreases |msgs|
  {
    if |msgs| > 0 {
      var last := |msgs| - 1;
      var earlier := msgs[..last];
      assert Merge(msgs) == Merge(earlier) + msgs[last];
      MergeKeys(earlier, k);
      if k in Merge(earlier) {
        var i :| 0 <= i < |earlier| && k in earlier[i];
        assert k in msgs[i];
      }
      if i :| 0 <= i < |msgs| && k in msgs[i] {
        if i < last {
          assert k in earlier[i];
        }
      }
    }
  }

  lemma MergeSnoc(msgs: seq<Batch>, m: Batch)
    ensures Merge(msgs + [m]) == Merge(msgs) + m
  {
    assert (msgs + [m])[..|msgs|] == msgs;
  }

  /** The inner drain loop for one frame. */
  method DrainFrame(idx: nat, pending: seq<Batch>) returns (item: Item)
    ensures item.idx == idx
    ensures item.controls == Merge(pending)
  {
    var controls: Batch := map[];
    var i := 0;
    while i < |pending|
      invariant 0 <= i <= |pending|
      invariant controls == Merge(pending[..i])
    {
      MergeSnoc(pending[..i], pending[i]);
      assert pending[..i] + [pending[i]] == pending[..i + 1];
      controls := controls + pending[i];
      i := i + 1;
    }
    assert pending[..i] == pending;
    item := Item(idx, controls);
  }

  /** The generator run over a finite number of frames, `drains[n]` being the
      messages the poll returned before frame `n` was yielded. */
  method Control(drains: seq<seq<Batch>>) returns (items: seq<Item>)
    ensures |items| == |drains|
    ensures forall n :: 0 <= n < |items| ==> items[n].idx == n && items[n].controls == Merge(drains[n])
    ensures forall n :: 0 <= n < |drains| && |drains[n]| == 0 ==> items[n].controls == map[]
  {
    items := [];
    var n := 0;
    while n < |drains|
      invariant 0 <= n <= |drains|
      invariant |items| == n
      invariant forall m :: 0 <= m < n ==> items[m].idx == m && items[m].controls == Merge(drains[m])
    {
      var item := DrainFrame(n, drains[n]);
      items := items + [item];
      n := n + 1;
    }
  }

  /** Ordinals start at 0 and go up by exactly one per frame. */
  lemma OrdinalsConsecutive(items: seq<Item>)
    requires forall n :: 0 <= n < |items| ==> items[n].idx == n
    ensures |items| > 0 ==> items[0].idx == 0
    ensures forall n :: 0 <= n < |items| - 1 ==> items[n + 1].idx == items[n].idx + 1
    ensures forall a, b :: 0 <= a < b < |items| ==> items[a].idx < items[b].idx
  {
  }
}

=== FILE: focus.dfy ===
/** The focus stage: a capability fixed when the stage starts, a latched
    auto-focus enable flag, and per frame a set of lens control changes built
    from the frame's control batch. Changes are issued, and the flag written to
    metadata, only on a device that can focus.
 */
module Focus {
  import opened Values

  datatype FocusState = FocusState(canFocus: bool, afEnable: Value)

  /** What one frame produces: the next state, the frame's metadata after the
      stage, and the argument of the `set_controls` call if one is made. */
  datatype FocusOut = FocusOut(state: FocusState, metadata: Batch, issued: Option<Batch>)

  /** The stage's start: its state and the controls issued before the first frame. */
  datatype FocusStart = FocusStart(state: FocusState, issued: Option<Batch>)

  /** The capability probe as the source writes it: `AfState or AfMode`, each
      read with default `False`, i.e. a truthiness test of the reported values. */
  function ProbeAsWritten(mdata: Batch): (r: Value)
    ensures Truthy(r) <==> Truthy(Get(mdata, "AfState", Bool(false))) || Truthy(Get(mdata, "AfMode", Bool(false)))
    ensures !("AfState" in mdata || "AfMode" in mdata) ==> r == Bool(false)
  {
    var afState := Get(mdata, "AfState", Bool(false));
    if Truthy(afState) then afState else Get(mdata, "AfMode", Bool(false))
  }

  /** The capability probe as intended: the device reports an auto-focus state
      or mode at all, whatever its current value. */
  predicate CanFocus(mdata: Batch)
  {
    "AfState" in mdata || "AfMode" in mdata
  }

  /** libcamera's `AfStateIdle` and `AfModeManual` are both the integer 0. */
  const IdleManualMetadata: Batch := map["AfState" := Int(0), "AfMode" := Int(0)]

  /** The written probe reports a focus-capable device, idle in manual mode,
      as unable to focus. */
  lemma ProbeAsWrittenMissesIdleManual()
    ensures CanFocus(IdleManualMetadata)
    ensures !Truthy(ProbeAsWritten(IdleManualMetadata))
  {
  }

  /** The written probe's verdict depends on the reported values, not only on
      which keys are reported. */
  lemma ProbeAsWrittenDependsOnValues()
    ensures var busy := map["AfState" := Int(1), "AfMode" := Int(0)];
            busy.Keys == IdleManualMetadata.Keys
            && Truthy(ProbeAsWritten(busy)) != Truthy(ProbeAsWritten(IdleManualMetadata))
  {
  }

  /** The corrected probe reads only which keys the device reports. */
  lemma CanFocusDependsOnlyOnKeys(a: Batch, b: Batch)
    requires a.Keys == b.Keys
    ensures CanFocus(a) == CanFocus(b)
  {
  }

  /** The controls that start a focus-capable device in auto mode with a scan. */
  const AutoStart: Batch := map["AfMode" := AfModeValue(Auto), "AfTrigger" := AfTriggerValue(Start)]

  /** Probe the device once, latch the capability, and start auto-focus if possible. */
  function Probe(mdata: Batch): (r: FocusStart)
    ensures r.state.canFocus <==> ("AfState" in mdata || "AfMode" in mdata)
    ensures r.state.canFocus ==> r.issued == Some(AutoStart) && Truthy(r.state.afEnable)
    ensures !r.state.canFocus ==> r.issued == None && !Truthy(r.state.afEnable)
  {
    var can := CanFocus(mdata);
    FocusStart(FocusState(can, Bool(can)), if can then Some(AutoStart) else None)
  }

  /** The device controls the focus stage sets. */
  const Controls: set<string> := {"AfMode", "AfTrigger", "LensPosition"}

  /** The lens control changes one control batch asks for (`local_ctrls`). */
  function Requests(c: Batch): (local: Batch)
    ensures local.Keys <= Controls
    ensures "AfMode" in local <==> Given(c, "AfEnable") || Given(c, "LensPosition")
    ensures "AfMode" in local ==>
              local["AfMode"] == AfModeValue(if Given(c, "LensPosition") || !Truthy(c["AfEnable"]) then Manual else Auto)
    ensures "AfTrigger" in local <==>
              (Given(c, "AfEnable") && Truthy(c["AfEnable"])) || Truthy(Get(c, "AfTrigger", Bool(false)))
    ensures "AfTrigger" in local ==> local["AfTrigger"] == AfTriggerValue(Start)
    ensures "LensPosition" in local <==> Given(c, "LensPosition")
    ensures "LensPosition" in local ==> local["LensPosition"] == c["LensPosition"]
  {
    var fromEnable: Batch :=
      if !Given(c, "AfEnable") then map[]
      else if Truthy(c["AfEnable"]) then AutoStart
      else map["AfMode" := AfModeValue(Manual)];
    var fromTrigger :=
      if Truthy(Get(c, "AfTrigger", Bool(false))) then fromEnable["AfTrigger" := AfTriggerValue(Start)]
      else fromEnable;
    if Given(c, "LensPosition") then
      fromTrigger["AfMode" := AfModeValue(Manual)]["LensPosition" := c["LensPosition"]]
    else fromTrigger
  }

  /** The latched enable flag after one control batch. A truthy `AfEnable` is
      kept as given; a falsy one, or any lens position, latches `False`. */
  function NextEnable(afEnable: Value, c: Batch): (r: Value)
    ensures Given(c, "LensPosition") ==> r == Bool(false)
    ensures !Given(c, "LensPosition") && Given(c, "AfEnable") ==>
              r == (if Truthy(c["AfEnable"]) then c["AfEnable"] else Bool(false))
    ensures !Given(c, "LensPosition") && !Given(c, "AfEnable") ==> r == afEnable
    ensures Truthy(r) ==> Given(c, "AfEnable") || r == afEnable
  {
    var afterEnable :=
      if !Given(c, "AfEnable") then afEnable
      else if Truthy(c["AfEnable"]) then c["AfEnable"]
      else Bool(false);
    if Given(c, "LensPosition") then Bool(false) else afterEnable
  }

  function Latch(s: FocusState, c: Batch): FocusState
  {
    FocusState(s.canFocus, NextEnable(s.afEnable, c))
  }

  /** One frame through the focus stage. */
  function Step(s: FocusState, c: Batch, metadata: Batch): (r: FocusOut)
    ensures r.state == Latch(s, c)
    ensures !s.canFocus ==> r.issued == None && r.metadata == metadata
    ensures s.canFocus ==> "AfEnable" in r.metadata && r.metadata["AfEnable"] == r.state.afEnable
    ensures r.metadata.Keys <= metadata.Keys + {"AfEnable"}
    ensures forall k :: k in metadata && k != "AfEnable" ==> k in r.metadata && r.metadata[k] == metadata[k]
    ensures r.issued.Some? <==> s.canFocus && Requests(c) != map[]
    ensures r.issued.Some? ==> r.issued.value == Requests(c)
  {
    var local := Requests(c);
    var next := Latch(s, c);
    FocusOut(
      next,
      if s.canFocus then metadata["AfEnable" := next.afEnable] else metadata,
      if s.canFocus && |local| > 0 then Some(local) else None)
  }

  /** A lens position wins over everything else in the same batch, even an
      `AfEnable` asking for auto mode; a truthy `AfTrigger` still adds a scan. */
  lemma LensPositionTakesPrecedence(s: FocusState, c: Batch, metadata: Batch)
    requires s.canFocus && Given(c, "LensPosition")
    ensures var r := Step(s, c, metadata);
            && r.state.afEnable == Bool(false)
            && r.metadata["AfEnable"] == Bool(false)
            && r.issued.Some?
            && r.issued.value["AfMode"] == AfModeValue(Manual)
            && r.issued.value["LensPosition"] == c["LensPosition"]
            && (Truthy(Get(c, "AfTrigger", Bool(false))) ==> r.issued.value["AfTrigger"] == AfTriggerValue(Start))
  {
    assert "LensPosition" in Requests(c);
  }

  /** The state after a run of control batches, one per frame. */
  function After(s: FocusState, cs: seq<Batch>): FocusState
    decreases |cs|
  {
    if |cs| == 0 then s else Latch(After(s, cs[..|cs| - 1]), cs[|cs| - 1])
  }

  /** The capability never changes after the probe. */
  lemma {:induction false} CapabilityFixed(s: FocusState, cs: seq<Batch>)
    ensures After(s, cs).canFocus == s.canFocus
    decreases |cs|
  {
    if |cs| > 0 {
      CapabilityFixed(s, cs[..|cs| - 1]);
    }
  }

  /** The enable flag is carried unchanged across frames that give neither
      `AfEnable` nor `LensPosition`, whatever else they carry. */
  lemma {:induction false} EnablePersists(s: FocusState, cs: seq<Batch>)
    requires forall j :: 0 <= j < |cs| ==> !Given(cs[j], "AfEnable") && !Given(cs[j], "LensPosition")
    ensures After(s, cs).afEnable == s.afEnable
    decreases |cs|
  {
    if |cs| > 0 {
      var earlier := cs[..|cs| - 1];
      assert forall j :: 0 <= j < |earlier| ==> earlier[j] == cs[j];
      EnablePersists(s, earlier);
    }
  }

  /** After a frame that sets the lens position, auto-focus stays disabled on
      every later frame until a batch gives `AfEnable`; a bare `AfTrigger`
      does not re-enable it. */
  lemma {:induction false} ManualUntilEnabled(s: FocusState, cs: seq<Batch>, i: nat)
    requires i < |cs| && Given(cs[i], "LensPosition")
    requires forall j :: i < j < |cs| ==> !Given(cs[j], "AfEnable")
    ensures After(s, cs).afEnable == Bool(false)
    decreases |cs|
  {
    var last := |cs| - 1;
    if i < last {
      var earlier := cs[..last];
      assert forall j :: 0 <= j < |earlier| ==> earlier[j] == cs[j];
      ManualUntilEnabled(s, earlier, i);
    }
  }

  /** On a device without focus, no frame ever calls `set_controls` and no
      frame's metadata gains `AfEnable`. */
  lemma SilentWithoutCapability(s: FocusState, cs: seq<Batch>, k: nat, metadata: Batch)
    requires !s.canFocus && k < |cs|
    ensures Step(After(s, cs[..k]), cs[k], metadata).issued == None
    ensures Step(After(s, cs[..k]), cs[k], metadata).metadata == metadata
  {
    CapabilityFixed(s, cs[..k]);
  }

  /** On a device with focus, every frame's metadata reports the latched flag. */
  lemma ReportsLatchWithCapability(s: FocusState, cs: seq<Batch>, k: nat, metadata: Batch)
    requires s.canFocus && k < |cs|
    ensures var out := Step(After(s, cs[..k]), cs[k], metadata);
            "AfEnable" in out.metadata && out.metadata["AfEnable"] == After(s, cs[..k + 1]).afEnable
  {
    CapabilityFixed(s, cs[..k]);
    assert cs[..k + 1][..k] == cs[..k];
  }
}

=== FILE: formats.dfy ===
/** The pixel-format table: the element width, in bytes, with which a captured
    buffer of a given format is viewed. Packed 8-bit colour formats are viewed
    as single bytes; the Bayer formats, 10 to 16 bits per sample, as 16-bit
    words.
 */
module Formats {
  import opened Values

  const PackedColour: set<string> := {"RGB888", "BGR888"}

  const Bayer: set<string> := {"SBGGR10", "SBGGR12", "SBGGR16", "SGRBG16", "SGBRG16", "SRGGB16"}

  /** Bits per sample, read from the digits at the end of a Bayer format name. */
  function BayerBits(format: string): nat
    requires format in Bayer
  {
    if format == "SBGGR10" then 10 else if format == "SBGGR12" then 12 else 16
  }

  /** `image_dtypes[format]`, in bytes; an unknown format is a `KeyError`. */
  function ElementBytes(format: string): (r: Result<nat>)
    ensures r.Ok? <==> format in PackedColour + Bayer
    ensures r.Err? ==> r.error == KeyError(format)
    ensures r == Ok(1) <==> format in PackedColour
    ensures r == Ok(2) <==> format in Bayer
    ensures format in Bayer && r.Ok? ==> 8 < BayerBits(format) <= 8 * r.value
  {
    match format
    case "RGB888" => Ok(1)
    case "BGR888" => Ok(1)
    case "SBGGR10" => Ok(2)
    case "SBGGR12" => Ok(2)
    case "SBGGR16" => Ok(2)
    case "SGRBG16" => Ok(2)
    case "SGBRG16" => Ok(2)
    case "SRGGB16" => Ok(2)
    case _ => Err(KeyError(format))
  }
}

=== FILE: geometry.dfy ===
/** The two geometry stages, crop and scale. Each latches whether it is
    enabled from `FitMode` and the requested target size from `Width` and
    `Height`. When enabled and the target is smaller than the active image in
    some dimension, crop cuts out a centred rectangle and scale computes a
    uniform factor that makes the image fit. The resize itself is a parameter.
 */
module Geometry {
  import opened Values
  import ControlSource

  /** `sys.maxsize` on a 64-bit build: the default target, i.e. no bound. */
  const MaxSize: int := 0x7FFF_FFFF_FFFF_FFFF

  datatype FitKind = Cropped | Scaled

  /** The `FitMode` value that selects a stage. */
  function ModeName(kind: FitKind): string
  {
    match kind
    case Cropped => "cropped"
    case Scaled => "scaled"
  }

  /** Latched state of one geometry stage. */
  datatype FitState = FitState(enabled: bool, width: Value, height: Value)

  /** An image reduced to its size in pixels (numpy shape `(h, w, channels)`). */
  datatype Size = Size(width: nat, height: nat)

  /** The images of a frame by logical buffer name (`main`, `raw`). */
  type Images = map<string, Size>

  function Initial(enabled: bool): FitState
  {
    FitState(enabled, Int(MaxSize), Int(MaxSize))
  }

  /** The latching part of a geometry stage for one control batch. */
  function Latch(kind: FitKind, s: FitState, c: Batch): (r: FitState)
    ensures Given(c, "FitMode") ==> (r.enabled <==> c["FitMode"] == Str(ModeName(kind)))
    ensures !Given(c, "FitMode") ==> r.enabled == s.enabled
    ensures "Width" in c ==> r.width == c["Width"]
    ensures "Width" !in c ==> r.width == s.width
    ensures "Height" in c ==> r.height == c["Height"]
    ensures "Height" !in c ==> r.height == s.height
  {
    FitState(
      if Given(c, "FitMode") then c["FitMode"] == Str(ModeName(kind)) else s.enabled,
      Get(c, "Width", s.width),
      Get(c, "Height", s.height))
  }

  /** The state after a run of control batches, one per frame. */
  function After(kind: FitKind, s: FitState, cs: seq<Batch>): FitState
    decreases |cs|
  {
    if |cs| == 0 then s else Latch(kind, After(kind, s, cs[..|cs| - 1]), cs[|cs| - 1])
  }

  /** The enabled flag changes only on frames whose batch gives `FitMode`. */
  lemma {:induction false} EnabledPersists(kind: FitKind, s: FitState, cs: seq<Batch>)
    requires forall j :: 0 <= j < |cs| ==> !Given(cs[j], "FitMode")
    ensures After(kind, s, cs).enabled == s.enabled
    decreases |cs|
  {
    if |cs| > 0 {
      var earlier := cs[..|cs| - 1];
      assert forall j :: 0 <= j < |earlier| ==> earlier[j] == cs[j];
      EnabledPersists(kind, s, earlier);
    }
  }

  /** The target size is the last `Width`/`Height` requested, whichever stage
      was enabled when it arrived, and unbounded when none was requested. */
  lemma {:induction false} TargetIsLastRequested(kind: FitKind, enabled: bool, cs: seq<Batch>)
    ensures After(kind, Initial(enabled), cs).width == Get(ControlSource.Merge(cs), "Width", Int(MaxSize))
    ensures After(kind, Initial(enabled), cs).height == Get(ControlSource.Merge(cs), "Height", Int(MaxSize))
    decreases |cs|
  {
    if |cs| > 0 {
      TargetIsLastRequested(kind, enabled, cs[..|cs| - 1]);
    }
  }

  /** After a batch that gives `FitMode`, crop and scale are not both enabled. */
  lemma ExclusiveAfterFitMode(crop: FitState, scale: FitState, c: Batch)
    requires Given(c, "FitMode")
    ensures !(Latch(Cropped, crop, c).enabled && Latch(Scaled, scale, c).enabled)
  {
  }

  /** Crop and scale, fed the same batches, are never both enabled once they
      start exclusive or once any batch has given `FitMode`. */
  lemma {:induction false} NeverBothEnabled(crop: FitState, scale: FitState, cs: seq<Batch>)
    requires !(crop.enabled && scale.enabled) || exists j :: 0 <= j < |cs| && Given(cs[j], "FitMode")
    ensures !(After(Cropped, crop, cs).enabled && After(Scaled, scale, cs).enabled)
    decreases |cs|
  {
    if |cs| > 0 {
      var last := |cs| - 1;
      var earlier := cs[..last];
      if Given(cs[last], "FitMode") {
        ExclusiveAfterFitMode(After(Cropped, crop, earlier), After(Scaled, scale, earlier), cs[last]);
      } else {
        if j :| 0 <= j < |cs| && Given(cs[j], "FitMode") {
          assert j < last && Given(earlier[j], "FitMode");
        }
        NeverBothEnabled(crop, scale, earlier);
      }
    }
  }

  function Min(a: int, b: int): int
  {
    if a <= b then a else b
  }

  /** `int(x / 2)`: true division followed by truncation toward zero. Dafny's
      `/` rounds toward negative infinity, which differs for odd negative `x`. */
  function TruncHalf(x: int): (r: int)
    ensures x >= 0 ==> 2 * r <= x < 2 * r + 2
    ensures x < 0 ==> 2 * r - 2 < x <= 2 * r
  {
    if x >= 0 then x / 2 else -((-x) / 2)
  }

  /** Slice bounds `[x0, x1) x [y0, y1)` of a crop. */
  datatype Rect = Rect(x0: int, x1: int, y0: int, y1: int)

  /** The crop rectangle for an image of size `w` x `h` and target `tw` x `th`,
      or `None` when the target does not cut into the image. */
  function CropRect(w: nat, h: nat, tw: int, th: int): (r: Option<Rect>)
    ensures r.None? <==> tw >= w && th >= h
    ensures r.Some? && tw >= 0 && th >= 0 ==>
              && 0 <= r.value.x0 <= r.value.x1 <= w
              && 0 <= r.value.y0 <= r.value.y1 <= h
              && r.value.x1 - r.value.x0 == Min(w, tw)
              && r.value.y1 - r.value.y0 == Min(h, th)
              && 0 <= (w - r.value.x1) - r.value.x0 <= 1
              && 0 <= (h - r.value.y1) - r.value.y0 <= 1
  {
    var cw := Min(w, tw);
    var ch := Min(h, th);
    if cw < w || ch < h then
      Some(Rect(TruncHalf(w - cw), TruncHalf(w + cw), TruncHalf(h - ch), TruncHalf(h + ch)))
    else None
  }

  /** A 1920x1080 image cropped to 800x600 keeps columns 560..1360 and rows 240..840. */
  lemma CropExample()
    ensures CropRect(1920, 1080, 800, 600) == Some(Rect(560, 1360, 240, 840))
  {
  }

  /** Python's normalisation of the bounds of a slice with step 1: a negative
      bound counts from the end, and both are clamped into `[0, n]`. */
  function SliceBound(n: nat, b: int): (r: nat)
    ensures r <= n
    ensures 0 <= b <= n ==> r == b
  {
    if b < 0 then (if b + n < 0 then 0 else b + n)
    else if b > n then n
    else b
  }

  /** `len(range(n)[a:b])` */
  function SliceLen(n: nat, a: int, b: int): (r: nat)
    ensures r <= n
    ensures 0 <= a <= b <= n ==> r == b - a
  {
    var lo := SliceBound(n, a);
    var hi := SliceBound(n, b);
    if hi <= lo then 0 else hi - lo
  }

  /** The image a geometry stage works on: the raw image when the frame has
      one, the main image otherwise. */
  function ActiveKey(images: Images): string
  {
    if "raw" in images then "raw" else "main"
  }

  /** The integer target size latched in a state, or the error `min` raises on
      a value that does not compare with an `int`. */
  function Target(s: FitState): Result<(int, int)>
  {
    match (AsInt(s.width), AsInt(s.height))
    case (Some(tw), Some(th)) => Ok((tw, th))
    case _ => Err(TypeError("target size"))
  }

  /** One frame through the crop stage: the next state, the frame's images,
      and the slice the active image was cut to, if it was cut. */
  function CropStep(s: FitState, c: Batch, images: Images): (r: Result<(FitState, Images, Option<Rect>)>)
    ensures r.Ok? ==> r.value.0 == Latch(Cropped, s, c)
    ensures r.Ok? ==> r.value.1.Keys == images.Keys
    ensures r.Ok? ==> forall k :: k in images && k != ActiveKey(images) ==> r.value.1[k] == images[k]
    ensures !Latch(Cropped, s, c).enabled ==> r == Ok((Latch(Cropped, s, c), images, None))
    ensures r.Ok? <==>
              !Latch(Cropped, s, c).enabled || (ActiveKey(images) in images && Target(Latch(Cropped, s, c)).Ok?)
    ensures Latch(Cropped, s, c).enabled && ActiveKey(images) !in images ==> r == Err(KeyError(ActiveKey(images)))
    ensures Latch(Cropped, s, c).enabled && ActiveKey(images) in images && Target(Latch(Cropped, s, c)).Err? ==>
              r == Err(Target(Latch(Cropped, s, c)).error)
    ensures r.Ok? && Latch(Cropped, s, c).enabled ==>
              var (tw, th) := Target(Latch(Cropped, s, c)).value;
              var image := images[ActiveKey(images)];
              && r.value.2 == CropRect(image.width, image.height, tw, th)
              && (r.value.2.None? ==> r.value.1 == images)
              && (r.value.2.Some? ==>
                    var kept := r.value.2.value;
                    r.value.1[ActiveKey(images)] == Size(SliceLen(image.width, kept.x0, kept.x1), SliceLen(image.height, kept.y0, kept.y1)))
              && (tw >= 0 && th >= 0 ==> r.value.1[ActiveKey(images)] == Size(Min(image.width, tw), Min(image.height, th)))
  {
    var next := Latch(Cropped, s, c);
    if !next.enabled then Ok((next, images, None))
    else
      var key := ActiveKey(images);
      if key !in images then Err(KeyError(key))
      else match Target(next)
        case Err(e) => Err(e)
        case Ok((tw, th)) =>
          var image := images[key];
          match CropRect(image.width, image.height, tw, th)
          case None => Ok((next, images, None))
          case Some(rect) =>
            Ok((next, images[key := Size(SliceLen(image.width, rect.x0, rect.x1), SliceLen(image.height, rect.y0, rect.y1))], Some(rect)))
  }

  /** An enabled crop stage whose integer target cuts into the active image
      keeps the centred region: the left and right margins differ by at most
      one pixel, as do the top and bottom ones. */
  lemma CroppedCentred(s: FitState, c: Batch, images: Images)
    requires Latch(Cropped, s, c).enabled && ActiveKey(images) in images
    requires Target(Latch(Cropped, s, c)).Ok?
    requires var (tw, th) := Target(Latch(Cropped, s, c)).value;
             var image := images[ActiveKey(images)];
             0 <= tw && 0 <= th && (tw < image.width || th < image.height)
    ensures var r := CropStep(s, c, images);
            var image := images[ActiveKey(images)];
            && r.Ok? && r.value.2.Some?
            && var kept := r.value.2.value;
            && 0 <= kept.x0 <= kept.x1 <= image.width
            && 0 <= kept.y0 <= kept.y1 <= image.height
            && 0 <= (image.width - kept.x1) - kept.x0 <= 1
            && 0 <= (image.height - kept.y1) - kept.y0 <= 1
            && r.value.1[ActiveKey(images)] == Size(kept.x1 - kept.x0, kept.y1 - kept.y0)
  {
  }

  /** The uniform scale factor for an image of size `w` x `h` and target
      `tw` x `th`, `None` when the target does not cut into the image. */
  function ScaleFactor(w: nat, h: nat, tw: int, th: int): (r: Result<Option<real>>)
    ensures r.Ok? && r.value.None? <==> tw >= w && th >= h
    ensures w > 0 && h > 0 ==> r.Ok?
  {
    var sw := Min(w, tw);
    var sh := Min(h, th);
    if sw < w || sh < h then
      if w == 0 || h == 0 then Err(ZeroDivisionError)
      else
        var fw := sw as real / w as real;
        var fh := sh as real / h as real;
        Ok(Some(if fw <= fh then fw else fh))
    else Ok(None)
  }

  /** `(a / d) * d == a` for a positive denominator. */
  lemma QuotientTimesDivisor(a: real, d: real)
    requires d > 0.0
    ensures (a / d) * d == a
  {
  }

  /** Multiplying both sides of `x <= y` by a positive factor. */
  lemma MultiplyMonotone(x: real, y: real, d: real)
    requires x <= y && d > 0.0
    ensures x * d <= y * d
  {
  }

  /** The smaller of the two axis ratios `sw/w` and `sh/h` shrinks both axes
      into their bounds and meets the bound on the axis it came from. */
  lemma SmallerRatioFits(w: real, h: real, sw: real, sh: real, f: real)
    requires w > 0.0 && h > 0.0
    requires 0.0 <= sw <= w && 0.0 <= sh <= h && (sw < w || sh < h)
    requires f == if sw / w <= sh / h then sw / w else sh / h
    ensures 0.0 <= f < 1.0
    ensures f * w <= sw && f * h <= sh
    ensures f * w == sw || f * h == sh
  {
    var fw := sw / w;
    var fh := sh / h;
    QuotientTimesDivisor(sw, w);
    QuotientTimesDivisor(sh, h);
    assert fw <= 1.0 by { MultiplyMonotone(sw, w, 1.0 / w); QuotientTimesDivisor(w, w); }
    assert fh <= 1.0 by { MultiplyMonotone(sh, h, 1.0 / h); QuotientTimesDivisor(h, h); }
    assert fw < 1.0 || fh < 1.0;
    MultiplyMonotone(f, fw, w);
    MultiplyMonotone(f, fh, h);
  }

  /** The factor shrinks the image to fit inside the target, touching it in at
      least one dimension, and never enlarges it. */
  lemma ScaleFits(w: nat, h: nat, tw: int, th: int)
    requires tw >= 0 && th >= 0
    requires ScaleFactor(w, h, tw, th).Ok? && ScaleFactor(w, h, tw, th).value.Some?
    ensures var f := ScaleFactor(w, h, tw, th).value.value;
            && 0.0 <= f < 1.0
            && f * w as real <= tw as real
            && f * h as real <= th as real
            && (f * w as real == Min(w, tw) as real || f * h as real == Min(h, th) as real)
  {
    var sw := Min(w, tw);
    var sh := Min(h, th);
    var f := ScaleFactor(w, h, tw, th).value.value;
    SmallerRatioFits(w as real, h as real, sw as real, sh as real, f);
  }

  /** A 1920x1080 image scaled to fit 800x600 is bound by its width: factor 5/12. */
  lemma ScaleExample()
    ensures ScaleFactor(1920, 1080, 800, 600) == Ok(Some(5.0 / 12.0))
  {
  }

  /** One frame through the scale stage; `resize` stands for the image
      library's resize by a uniform factor. */
  function ScaleStep(s: FitState, c: Batch, images: Images, resize: (Size, real) -> Size): (r: Result<(FitState, Images)>)
    ensures r.Ok? ==> r.value.0 == Latch(Scaled, s, c)
    ensures r.Ok? ==> r.value.1.Keys == images.Keys
    ensures r.Ok? ==> forall k :: k in images && k != ActiveKey(images) ==> r.value.1[k] == images[k]
    ensures !Latch(Scaled, s, c).enabled ==> r == Ok((Latch(Scaled, s, c), images))
    ensures Latch(Scaled, s, c).enabled && ActiveKey(images) !in images ==> r == Err(KeyError(ActiveKey(images)))
    ensures Latch(Scaled, s, c).enabled && ActiveKey(images) in images && Target(Latch(Scaled, s, c)).Err? ==>
              r == Err(Target(Latch(Scaled, s, c)).error)
    ensures Latch(Scaled, s, c).enabled && ActiveKey(images) in images && Target(Latch(Scaled, s, c)).Ok? ==>
              var (tw, th) := Target(Latch(Scaled, s, c)).value;
              var image := images[ActiveKey(images)];
              var factor := ScaleFactor(image.width, image.height, tw, th);
              && (factor.Err? ==> r == Err(factor.error))
              && (factor.Ok? && factor.value.None? ==> r == Ok((Latch(Scaled, s, c), images)))
              && (factor.Ok? && factor.value.Some? ==>
                    r == Ok((Latch(Scaled, s, c), images[ActiveKey(images) := resize(image, factor.value.value)])))
  {
    var next := Latch(Scaled, s, c);
    if !next.enabled then Ok((next, images))
    else
      var key := ActiveKey(images);
      if key !in images then Err(KeyError(key))
      else match Target(next)
        case Err(e) => Err(e)
        case Ok((tw, th)) =>
          var image := images[key];
          match ScaleFactor(image.width, image.height, tw, th)
          case Err(e) => Err(e)
          case Ok(None) => Ok((next, images))
          case Ok(Some(factor)) => Ok((next, images[key := resize(image, factor)]))
  }

  /** An enabled scale stage whose integer target cuts into a non-empty
      active image resizes that image, and only it, by the factor that fits
      it inside the target. */
  lemma ScaledToFit(s: FitState, c: Batch, images: Images, resize: (Size, real) -> Size)
    requires Latch(Scaled, s, c).enabled && ActiveKey(images) in images
    requires Target(Latch(Scaled, s, c)).Ok?
    requires var (tw, th) := Target(Latch(Scaled, s, c)).value;
             var image := images[ActiveKey(images)];
             && 0 <= tw && 0 <= th && image.width > 0 && image.height > 0
             && (tw < image.width || th < image.height)
    ensures var (tw, th) := Target(Latch(Scaled, s, c)).value;
            var image := images[ActiveKey(images)];
            var factor := ScaleFactor(image.width, image.height, tw, th);
            && factor.Ok? && factor.value.Some?
            && var f := factor.value.value;
            && 0.0 <= f < 1.0
            && f * image.width as real <= tw as real
            && f * image.height as real <= th as real
            && ScaleStep(s, c, images, resize) == Ok((Latch(Scaled, s, c), images[ActiveKey(images) := resize(image, f)]))
  {
    var (tw, th) := Target(Latch(Scaled, s, c)).value;
    var image := images[ActiveKey(images)];
    ScaleFits(image.width, image.height, tw, th);
  }

  /** Crop then scale on one frame: when the two latched flags are not both
      set, the frame's images come out of at most one of the transformations. */
  lemma AtMostOneTransformation(crop: FitState, scale: FitState, c: Batch, images: Images, resize: (Size, real) -> Size)
    requires !(Latch(Cropped, crop, c).enabled && Latch(Scaled, scale, c).enabled)
    requires CropStep(crop, c, images).Ok?
    ensures var cropped := CropStep(crop, c, images).value.1;
            var out := ScaleStep(scale, c, cropped, resize);
            || out == Ok((Latch(Scaled, scale, c), cropped))
            || (cropped == images && out == ScaleStep(scale, c, images, resize))
  {
  }
}

=== FILE: owned.dfy ===
/** The white-balance and exposure stages. Both follow one pattern: restrict
    the frame's control batch to the keys the stage owns, issue that
    restriction when it is non-empty, latch the stage's enable flag from it
    (initially `True`), and write the flag to metadata on every frame.
 */
module Owned {
  import opened Values
  import ControlSource

  datatype Stage = WhiteBalance | Exposure

  /** The device controls a stage owns (`local_keys`). */
  function Keys(stage: Stage): set<string>
  {
    match stage
    case WhiteBalance => {"AwbEnable", "ColourGains"}
    case Exposure => {"AeEnable", "AnalogueGain", "ExposureTime"}
  }

  /** The stage's enable control, which is also the metadata key it writes. */
  function EnableKey(stage: Stage): (k: string)
    ensures k in Keys(stage)
  {
    match stage
    case WhiteBalance => "AwbEnable"
    case Exposure => "AeEnable"
  }

  /** Both stages start with their automatic algorithm enabled. */
  const InitialEnable: Value := Bool(true)

  datatype OwnedOut = OwnedOut(enable: Value, metadata: Batch, issued: Option<Batch>)

  /** The part of a control batch whose keys the stage owns. */
  function Restrict(c: Batch, keys: set<string>): (local: Batch)
    ensures local.Keys == keys * c.Keys
    ensures forall k :: k in local ==> local[k] == c[k]
  {
    map k | k in keys && k in c :: c[k]
  }

  /** One frame through a white-balance or exposure stage. */
  function Step(stage: Stage, enable: Value, c: Batch, metadata: Batch): (r: OwnedOut)
    ensures r.issued.Some? <==> Keys(stage) * c.Keys != {}
    ensures r.issued.Some? ==> r.issued.value.Keys == Keys(stage) * c.Keys
    ensures r.issued.Some? ==> forall k :: k in r.issued.value ==> r.issued.value[k] == c[k]
    ensures r.enable == Get(c, EnableKey(stage), enable)
    ensures EnableKey(stage) in r.metadata && r.metadata[EnableKey(stage)] == r.enable
    ensures r.metadata.Keys == metadata.Keys + {EnableKey(stage)}
    ensures forall k :: k in metadata && k != EnableKey(stage) ==> r.metadata[k] == metadata[k]
  {
    var local := Restrict(c, Keys(stage));
    var next := Get(local, EnableKey(stage), enable);
    OwnedOut(next, metadata[EnableKey(stage) := next], if local != map[] then Some(local) else None)
  }

  /** The latched enable flag after a run of control batches, one per frame. */
  function After(stage: Stage, enable: Value, cs: seq<Batch>): Value
    decreases |cs|
  {
    if |cs| == 0 then enable
    else Step(stage, After(stage, enable, cs[..|cs| - 1]), cs[|cs| - 1], map[]).enable
  }

  /** The flag is carried unchanged across frames whose batch omits the
      stage's enable key, whatever other keys those batches carry. */
  lemma {:induction false} EnablePersists(stage: Stage, enable: Value, cs: seq<Batch>)
    requires forall j :: 0 <= j < |cs| ==> EnableKey(stage) !in cs[j]
    ensures After(stage, enable, cs) == enable
    decreases |cs|
  {
    if |cs| > 0 {
      var earlier := cs[..|cs| - 1];
      assert forall j :: 0 <= j < |earlier| ==> earlier[j] == cs[j];
      EnablePersists(stage, enable, earlier);
    }
  }

  /** The latched flag is what merging every batch so far would give for the
      enable key, or the initial value when no batch carried it. */
  lemma {:induction false} EnableIsLastGiven(stage: Stage, enable: Value, cs: seq<Batch>)
    ensures After(stage, enable, cs) == Get(ControlSource.Merge(cs), EnableKey(stage), enable)
    decreases |cs|
  {
    if |cs| > 0 {
      EnableIsLastGiven(stage, enable, cs[..|cs| - 1]);
    }
  }

  /** Starting from `True`, the flag is falsy only after some batch asked for a
      falsy enable value. */
  lemma {:induction false} DisabledOnlyOnRequest(stage: Stage, cs: seq<Batch>)
    ensures !Truthy(After(stage, InitialEnable, cs)) ==>
              exists j :: 0 <= j < |cs| && EnableKey(stage) in cs[j] && !Truthy(cs[j][EnableKey(stage)])
    decreases |cs|
  {
    if |cs| > 0 && !Truthy(After(stage, InitialEnable, cs)) {
      var last := |cs| - 1;
      var earlier := cs[..last];
      if EnableKey(stage) in cs[last] {
        assert !Truthy(cs[last][EnableKey(stage)]);
      } else {
        DisabledOnlyOnRequest(stage, earlier);
        var j :| 0 <= j < |earlier| && EnableKey(stage) in earlier[j] && !Truthy(earlier[j][EnableKey(stage)]);
        assert earlier[j] == cs[j];
      }
    }
  }

  /** The two stages own disjoint device controls and write disjoint metadata
      keys, so running them in either order leaves the same metadata. */
  lemma StagesDoNotInterfere(awb: Value, ae: Value, c: Batch, metadata: Batch)
    ensures Keys(WhiteBalance) !! Keys(Exposure)
    ensures var wbFirst := Step(Exposure, ae, c, Step(WhiteBalance, awb, c, metadata).metadata);
            var aeFirst := Step(WhiteBalance, awb, c, Step(Exposure, ae, c, metadata).metadata);
            wbFirst.metadata == aeFirst.metadata
  {
  }
}

=== FILE: pipeline.dfy ===
/** The three control-application stages applied to one frame in turn. Each
    owns its own device controls and its own metadata key, so together they
    issue disjoint control changes and never overwrite each other's metadata.
 */
module Pipeline {
  import opened Values
  import Focus
  import Owned

  /** The next latches, the metadata after the three stages, and the
      `set_controls` call each stage made, if any. */
  datatype ControlOut = ControlOut(
    focus: Focus.FocusState,
    awbEnable: Value,
    aeEnable: Value,
    metadata: Batch,
    focusCall: Option<Batch>,
    awbCall: Option<Batch>,
    aeCall: Option<Batch>)

  /** The controls a call sets, none when no call is made. */
  function CallKeys(o: Option<Batch>): set<string>
  {
    if o.Some? then o.value.Keys else {}
  }

  /** The three stages set disjoint device controls and write distinct
      metadata keys. */
  lemma OwnershipDisjoint()
    ensures Focus.Controls !! Owned.Keys(Owned.WhiteBalance)
    ensures Focus.Controls !! Owned.Keys(Owned.Exposure)
    ensures Owned.Keys(Owned.WhiteBalance) !! Owned.Keys(Owned.Exposure)
    ensures "AfEnable" != "AwbEnable" && "AfEnable" != "AeEnable" && "AwbEnable" != "AeEnable"
  {
    assert |"AfMode"| == 6 && |"AfTrigger"| == 9 && |"LensPosition"| == 12;
    assert |"AwbEnable"| == 9 && |"ColourGains"| == 11;
    assert |"AeEnable"| == 8 && |"AnalogueGain"| == 12 && |"ExposureTime"| == 12;
    assert |"AfEnable"| == 8;
    assert "AfTrigger"[1] != "AwbEnable"[1];
    assert "AfEnable"[1] != "AeEnable"[1];
    assert "LensPosition"[0] != "AnalogueGain"[0] && "LensPosition"[0] != "ExposureTime"[0];
  }

  /** Focus, then white balance, then exposure, on one frame's batch and metadata. */
  function ApplyControls(f: Focus.FocusState, awb: Value, ae: Value, c: Batch, metadata: Batch): (r: ControlOut)
    ensures "AwbEnable" in r.metadata && r.metadata["AwbEnable"] == r.awbEnable == Get(c, "AwbEnable", awb)
    ensures "AeEnable" in r.metadata && r.metadata["AeEnable"] == r.aeEnable == Get(c, "AeEnable", ae)
    ensures f.canFocus ==> "AfEnable" in r.metadata && r.metadata["AfEnable"] == r.focus.afEnable
    ensures !f.canFocus ==> ("AfEnable" in r.metadata <==> "AfEnable" in metadata)
    ensures !f.canFocus && "AfEnable" in metadata ==> r.metadata["AfEnable"] == metadata["AfEnable"]
    ensures r.focus == Focus.Latch(f, c)
    ensures r.focusCall.Some? <==> f.canFocus && Focus.Requests(c) != map[]
    ensures r.focusCall.Some? ==> r.focusCall.value == Focus.Requests(c)
    ensures r.awbCall.Some? <==> Owned.Keys(Owned.WhiteBalance) * c.Keys != {}
    ensures r.awbCall.Some? ==> r.awbCall.value == Owned.Restrict(c, Owned.Keys(Owned.WhiteBalance))
    ensures r.aeCall.Some? <==> Owned.Keys(Owned.Exposure) * c.Keys != {}
    ensures r.aeCall.Some? ==> r.aeCall.value == Owned.Restrict(c, Owned.Keys(Owned.Exposure))
    ensures forall k :: k in metadata && k != "AfEnable" && k != "AwbEnable" && k != "AeEnable" ==>
              k in r.metadata && r.metadata[k] == metadata[k]
    ensures CallKeys(r.focusCall) !! CallKeys(r.awbCall)
    ensures CallKeys(r.focusCall) !! CallKeys(r.aeCall)
    ensures CallKeys(r.awbCall) !! CallKeys(r.aeCall)
  {
    OwnershipDisjoint();
    var fo := Focus.Step(f, c, metadata);
    var wo := Owned.Step(Owned.WhiteBalance, awb, c, fo.metadata);
    var eo := Owned.Step(Owned.Exposure, ae, c, wo.metadata);
    ControlOut(fo.state, wo.enable, eo.enable, eo.metadata, fo.issued, wo.issued, eo.issued)
  }
}

=== FILE: publisher.dfy ===
/** The publisher: per frame it publishes the metadata, stripped of the large
    statistics payloads, and the encoded image, both tagged with the frame's
    ordinal; and it sends back to the control plane the tracked exposure,
    lens and colour-gain values that changed since the last frame, or nothing
    when none changed. Serialisation and transport are left out: messages are
    returned values.
 */
module Publisher {
  import opened Values
  import opened Text

  /** Metadata keys with this suffix carry statistics payloads. */
  const StatsSuffix: string := "StatsOutput"

  predicate IsStats(k: string)
  {
    EndsWith(k, StatsSuffix)
  }

  /** The metadata subscribers receive: the frame's metadata without the
      statistics payloads. */
  function Strip(metadata: Batch): (r: Batch)
    ensures forall k :: k in r <==> k in metadata && !IsStats(k)
    ensures forall k :: k in r ==> r[k] == metadata[k]
  {
    map k | k in metadata && !IsStats(k) :: metadata[k]
  }

  /** The copy-and-delete loop over the keys of a copy of the metadata. The
      caller's map is a value, so the frame's own metadata is untouched. */
  method StripStats(metadata: Batch) returns (published: Batch)
    ensures forall k :: k in published <==> k in metadata && !IsStats(k)
    ensures forall k :: k in published ==> published[k] == metadata[k]
    ensures published == Strip(metadata)
  {
    published := metadata;
    var pending := metadata.Keys;
    while pending != {}
      invariant pending <= metadata.Keys
      invariant forall k :: k in published <==> k in metadata && (k in pending || !IsStats(k))
      invariant forall k :: k in published ==> published[k] == metadata[k]
      decreases pending
    {
      var k :| k in pending;
      if IsStats(k) {
        published := published - {k};
      }
      pending := pending - {k};
    }
    assert published.Keys == Strip(metadata).Keys;
  }

  /** The last values sent back to the control plane. */
  datatype PubState = PubState(
    analogueGain: Value,
    exposureTime: Value,
    lensPosition: Value,
    redGain: Value,
    blueGain: Value)

  const Initial: PubState := PubState(Real(0.0), Int(0), Real(0.0), Real(0.0), Real(0.0))

  /** The next latches and the state update sent on the control plane, if any. */
  datatype Feedback = Feedback(state: PubState, update: Option<Batch>)

  /** The delta a feedback carries, empty when nothing is sent. */
  function Delta(f: Feedback): Batch
  {
    if f.update.Some? then f.update.value else map[]
  }

  datatype Publication =
    | MetadataMessage(frameId: string, metadata: Batch)
    | ImageMessage(frameId: string, jpeg: seq<bv8>)

  datatype PubOut = PubOut(published: seq<Publication>, feedback: Result<Feedback>)

  /** `round(v, 2)`: an `int` (or `bool`) rounds to itself as an `int`; a
      float goes through `round2`, which stands for the library rounding. */
  function RoundGain(v: Value, round2: real -> real): (r: Result<Value>)
    ensures r.Ok? <==> AsNumber(v).Some?
    ensures r.Ok? && !v.Real? ==> r.value.Int? && PyEq(r.value, v)
  {
    match v
    case Bool(b) => Ok(Int(if b then 1 else 0))
    case Int(i) => Ok(Int(i))
    case Real(x) => Ok(Real(round2(x)))
    case _ => Err(TypeError("round"))
  }

  /** The rounded red and blue gains: `ColourGains` unpacked into two values,
      `(0.0, 0.0)` when absent. */
  function Gains(meta: Batch, round2: real -> real): (r: Result<(Value, Value)>)
    ensures "ColourGains" !in meta ==> r == Ok((Real(round2(0.0)), Real(round2(0.0))))
    ensures r.Ok? <==>
              var g := Get(meta, "ColourGains", Tuple([Real(0.0), Real(0.0)]));
              g.Tuple? && |g.items| == 2 && AsNumber(g.items[0]).Some? && AsNumber(g.items[1]).Some?
  {
    var g := Get(meta, "ColourGains", Tuple([Real(0.0), Real(0.0)]));
    if !g.Tuple? then Err(TypeError("ColourGains"))
    else if |g.items| != 2 then Err(ValueError("ColourGains"))
    else match (RoundGain(g.items[0], round2), RoundGain(g.items[1], round2))
      case (Ok(red), Ok(blue)) => Ok((red, blue))
      case (Err(e), _) => Err(e)
      case (_, Err(e)) => Err(e)
  }

  /** The state-update half of the publisher for one frame's stripped metadata. */
  function Track(s: PubState, meta: Batch, round2: real -> real): (r: Result<Feedback>)
    ensures r.Ok? <==>
              && "AnalogueGain" in meta && "ExposureTime" in meta
              && ("LensPosition" in meta || PyEq(s.lensPosition, Real(0.0)))
              && Gains(meta, round2).Ok?
    ensures "AnalogueGain" !in meta ==> r == Err(KeyError("AnalogueGain"))
    ensures "AnalogueGain" in meta && "ExposureTime" !in meta ==> r == Err(KeyError("ExposureTime"))
    ensures "AnalogueGain" in meta && "ExposureTime" in meta && "LensPosition" !in meta && !PyEq(s.lensPosition, Real(0.0)) ==>
              r == Err(KeyError("LensPosition"))
    ensures r.Ok? ==> r.value.update.Some? ==> r.value.update.value != map[]
    ensures r.Ok? ==> Delta(r.value).Keys <= {"AnalogueGain", "ExposureTime", "LensPosition", "RedGain", "BlueGain"}
  {
    if "AnalogueGain" !in meta then Err(KeyError("AnalogueGain"))
    else if "ExposureTime" !in meta then Err(KeyError("ExposureTime"))
    else
      var ag := meta["AnalogueGain"];
      var et := meta["ExposureTime"];
      var exposureChanged := !PyEq(ag, s.analogueGain) || !PyEq(et, s.exposureTime);
      var u1: Batch := if exposureChanged then map["AnalogueGain" := ag, "ExposureTime" := et] else map[];
      var lensChanged := !PyEq(s.lensPosition, Get(meta, "LensPosition", Real(0.0)));
      if lensChanged && "LensPosition" !in meta then Err(KeyError("LensPosition"))
      else
        var lp := if lensChanged then meta["LensPosition"] else s.lensPosition;
        var u2 := if lensChanged then u1["LensPosition" := lp] else u1;
        match Gains(meta, round2)
        case Err(e) => Err(e)
        case Ok((red, blue)) =>
          var redChanged := !PyEq(s.redGain, red);
          var blueChanged := !PyEq(s.blueGain, blue);
          var u3 := if redChanged then u2["RedGain" := red] else u2;
          var u4 := if blueChanged then u3["BlueGain" := blue] else u3;
          var next := PubState(
            if exposureChanged then ag else s.analogueGain,
            if exposureChanged then et else s.exposureTime,
            lp,
            if redChanged then red else s.redGain,
            if blueChanged then blue else s.blueGain);
          Ok(Feedback(next, if u4 != map[] then Some(u4) else None))
  }

  /** Which tracked values a delta reports, and with what: gain and exposure
      time go together when either changed; lens position, red and blue gain
      each go exactly when they changed; every reported value is latched. */
  lemma TrackReportsChanges(s: PubState, meta: Batch, round2: real -> real)
    requires Track(s, meta, round2).Ok?
    ensures var f := Track(s, meta, round2).value;
            var u := Delta(f);
            var (red, blue) := Gains(meta, round2).value;
            && ("AnalogueGain" in u <==> !PyEq(meta["AnalogueGain"], s.analogueGain) || !PyEq(meta["ExposureTime"], s.exposureTime))
            && ("ExposureTime" in u <==> "AnalogueGain" in u)
            && ("AnalogueGain" in u ==>
                  u["AnalogueGain"] == f.state.analogueGain == meta["AnalogueGain"]
                  && u["ExposureTime"] == f.state.exposureTime == meta["ExposureTime"])
            && ("AnalogueGain" !in u ==> f.state.analogueGain == s.analogueGain && f.state.exposureTime == s.exposureTime)
            && ("LensPosition" in u <==> !PyEq(s.lensPosition, Get(meta, "LensPosition", Real(0.0))))
            && ("LensPosition" in u ==> u["LensPosition"] == f.state.lensPosition == meta["LensPosition"])
            && ("LensPosition" !in u ==> f.state.lensPosition == s.lensPosition)
            && ("RedGain" in u <==> !PyEq(s.redGain, red))
            && ("RedGain" in u ==> u["RedGain"] == f.state.redGain == red)
            && ("RedGain" !in u ==> f.state.redGain == s.redGain)
            && ("BlueGain" in u <==> !PyEq(s.blueGain, blue))
            && ("BlueGain" in u ==> u["BlueGain"] == f.state.blueGain == blue)
            && ("BlueGain" !in u ==> f.state.blueGain == s.blueGain)
  {
  }

  /** After a frame, every latch agrees with that frame's value. */
  lemma LatchesFollowFrame(s: PubState, meta: Batch, round2: real -> real)
    requires Track(s, meta, round2).Ok?
    ensures var t := Track(s, meta, round2).value.state;
            var (red, blue) := Gains(meta, round2).value;
            && PyEq(t.analogueGain, meta["AnalogueGain"])
            && PyEq(t.exposureTime, meta["ExposureTime"])
            && PyEq(t.lensPosition, Get(meta, "LensPosition", Real(0.0)))
            && PyEq(t.redGain, red)
            && PyEq(t.blueGain, blue)
  {
    TrackReportsChanges(s, meta, round2);
    var t := Track(s, meta, round2).value.state;
    PyEqIsEquivalence(t.analogueGain, meta["AnalogueGain"], t.analogueGain);
    PyEqIsEquivalence(t.exposureTime, meta["ExposureTime"], t.exposureTime);
    PyEqIsEquivalence(t.lensPosition, Get(meta, "LensPosition", Real(0.0)), t.lensPosition);
    PyEqIsEquivalence(s.lensPosition, Get(meta, "LensPosition", Real(0.0)), t.lensPosition);
    var (red, blue) := Gains(meta, round2).value;
    PyEqIsEquivalence(t.redGain, red, t.redGain);
    PyEqIsEquivalence(t.blueGain, blue, t.blueGain);
  }

  /** From the initial latches (all zero) the first frame needs no
      `LensPosition`, and it reports exposure and lens position exactly when
      they are non-zero. */
  lemma FirstFrameReportsNonZero(meta: Batch, round2: real -> real)
    ensures Track(Initial, meta, round2).Ok? <==>
              "AnalogueGain" in meta && "ExposureTime" in meta && Gains(meta, round2).Ok?
    ensures Track(Initial, meta, round2).Ok? ==>
              var u := Delta(Track(Initial, meta, round2).value);
              && ("AnalogueGain" in u <==> !PyEq(meta["AnalogueGain"], Real(0.0)) || !PyEq(meta["ExposureTime"], Int(0)))
              && ("LensPosition" in u <==> !PyEq(Real(0.0), Get(meta, "LensPosition", Real(0.0))))
  {
    if Track(Initial, meta, round2).Ok? {
      TrackReportsChanges(Initial, meta, round2);
    }
  }

  /** One frame through the publisher. */
  function Step(s: PubState, idx: nat, metadata: Batch, jpeg: seq<bv8>, round2: real -> real): (r: PubOut)
    ensures |r.published| == 2
    ensures r.published[0].MetadataMessage? && r.published[1].ImageMessage?
    ensures r.published[0].frameId == r.published[1].frameId
    ensures AllDigits(r.published[0].frameId) && DecimalValue(r.published[0].frameId) == idx
    ensures forall k :: k in r.published[0].metadata <==> k in metadata && !IsStats(k)
    ensures forall k :: k in r.published[0].metadata ==> r.published[0].metadata[k] == metadata[k]
    ensures r.published[1].jpeg == jpeg
    ensures r.feedback == Track(s, r.published[0].metadata, round2)
  {
    var id := DecimalText(idx);
    DecimalRoundTrip(idx);
    var meta := Strip(metadata);
    PubOut([MetadataMessage(id, meta), ImageMessage(id, jpeg)], Track(s, meta, round2))
  }

  /** The publisher run over the metadata of consecutive frames: the final
      latches and, per frame, the update sent (if any). */
  function Run(s: PubState, metas: seq<Batch>, round2: real -> real): (r: Result<(PubState, seq<Option<Batch>>)>)
    ensures r.Ok? ==> |r.value.1| == |metas|
    ensures |metas| > 0 && r.Ok? ==>
              && Track(s, Strip(metas[0]), round2).Ok?
              && r.value.1[0] == Track(s, Strip(metas[0]), round2).value.update
    decreases |metas|
  {
    if |metas| == 0 then Ok((s, []))
    else match Track(s, Strip(metas[0]), round2)
      case Err(e) => Err(e)
      case Ok(f) =>
        match Run(f.state, metas[1..], round2)
        case Err(e) => Err(e)
        case Ok((t, updates)) => Ok((t, [f.update] + updates))
  }

  /** `n` frames in a row without a state update. */
  function NoUpdates(n: nat): seq<Option<Batch>>
  {
    seq(n, _ => None)
  }

  /** Two metadata maps agree on a key: both lack it, or both map it to the same value. */
  predicate SameOn(a: Batch, b: Batch, k: string)
  {
    (k in a <==> k in b) && (k in a ==> a[k] == b[k])
  }

  /** Two frames report the same tracked quantities. */
  predicate SameTracked(a: Batch, b: Batch)
  {
    && SameOn(a, b, "AnalogueGain")
    && SameOn(a, b, "ExposureTime")
    && SameOn(a, b, "LensPosition")
    && SameOn(a, b, "ColourGains")
  }

  /** None of the tracked keys is a statistics key, so stripping keeps them. */
  lemma StripKeepsTracked(a: Batch, b: Batch)
    requires SameTracked(a, b)
    ensures SameTracked(Strip(a), Strip(b))
  {
    assert !IsStats("AnalogueGain") by { assert "AnalogueGain"[1..] != StatsSuffix by { assert "AnalogueGain"[1] != StatsSuffix[0]; } }
    assert !IsStats("ExposureTime") by { assert "ExposureTime"[1..] != StatsSuffix by { assert "ExposureTime"[1] != StatsSuffix[0]; } }
    assert !IsStats("LensPosition") by { assert "LensPosition"[1..] != StatsSuffix by { assert "LensPosition"[1] != StatsSuffix[0]; } }
    assert !IsStats("ColourGains") by { assert "ColourGains"[..] != StatsSuffix by { assert "ColourGains"[0] != StatsSuffix[0]; } }
  }

  /** A frame whose tracked values already match the latches sends nothing
      and leaves the latches as they are. */
  lemma SettledIsSilent(s: PubState, meta: Batch, round2: real -> real)
    requires Track(s, meta, round2).Ok?
    ensures var t := Track(s, meta, round2).value.state;
            Track(t, meta, round2) == Ok(Feedback(t, None))
  {
    LatchesFollowFrame(s, meta, round2);
    var t := Track(s, meta, round2).value.state;
    var (red, blue) := Gains(meta, round2).value;
    PyEqIsEquivalence(t.analogueGain, meta["AnalogueGain"], t.analogueGain);
    PyEqIsEquivalence(t.exposureTime, meta["ExposureTime"], t.exposureTime);
    PyEqIsEquivalence(t.lensPosition, Get(meta, "LensPosition", Real(0.0)), Real(0.0));
    TrackReportsChanges(t, meta, round2);
  }

  /** After a frame has been published, any number of further frames with the
      same tracked values send no state update at all. */
  lemma {:induction false} QuietWhileUnchanged(s: PubState, first: Batch, metas: seq<Batch>, round2: real -> real)
    requires Track(s, Strip(first), round2).Ok?
    requires forall j :: 0 <= j < |metas| ==> SameTracked(metas[j], first)
    ensures var t := Track(s, Strip(first), round2).value.state;
            Run(t, metas, round2) == Ok((t, NoUpdates(|metas|)))
    decreases |metas|
  {
    var t := Track(s, Strip(first), round2).value.state;
    SettledIsSilent(s, Strip(first), round2);
    if |metas| > 0 {
      StripKeepsTracked(metas[0], first);
      TrackDependsOnTracked(t, Strip(metas[0]), Strip(first), round2);
      assert forall j :: 0 <= j < |metas[1..]| ==> metas[1..][j] == metas[j + 1];
      QuietWhileUnchanged(s, first, metas[1..], round2);
      assert Track(t, Strip(metas[0]), round2) == Ok(Feedback(t, None));
      assert Run(t, metas[1..], round2) == Ok((t, NoUpdates(|metas| - 1)));
      assert NoUpdates(|metas|) == [None] + NoUpdates(|metas| - 1);
      assert Run(t, metas, round2) == Ok((t, [None] + NoUpdates(|metas| - 1)));
    } else {
      assert NoUpdates(0) == [];
    }
  }

  /** The state update reads nothing but the tracked keys. */
  lemma TrackDependsOnTracked(s: PubState, a: Batch, b: Batch, round2: real -> real)
    requires SameTracked(a, b)
    ensures Track(s, a, round2) == Track(s, b, round2)
  {
    assert Get(a, "LensPosition", Real(0.0)) == Get(b, "LensPosition", Real(0.0));
    assert Gains(a, round2) == Gains(b, round2);
  }
}

=== FILE: text.dfy ===
/** String helpers: suffix tests for metadata keys and the decimal text of a
    frame ordinal, which the publisher sends as the frame's correlation id. */
module Text {

  predicate EndsWith(s: string, suffix: string)
  {
    |suffix| <= |s| && s[|s| - |suffix|..] == suffix
  }

  predicate IsDigit(c: char)
  {
    '0' <= c <= '9'
  }

  predicate AllDigits(s: string)
  {
    forall i :: 0 <= i < |s| ==> IsDigit(s[i])
  }

  function DigitChar(d: nat): (c: char)
    requires d < 10
    ensures IsDigit(c)
  {
    (48 + d) as char
  }

  /** `f"{n}"` for a non-negative integer: its shortest decimal text. */
  function DecimalText(n: nat): (s: string)
    ensures |s| > 0 && AllDigits(s)
    ensures |s| > 1 ==> s[0] != '0'
    decreases n
  {
    if n < 10 then [DigitChar(n)]
    else DecimalText(n / 10) + [DigitChar(n % 10)]
  }

  /** The number a string of decimal digits denotes. */
  function DecimalValue(s: string): nat
    requires AllDigits(s)
    decreases |s|
  {
    if |s| == 0 then 0
    else DecimalValue(s[..|s| - 1]) * 10 + (s[|s| - 1] as int - 48)
  }

  /** Reading the text back gives the ordinal. */
  lemma {:induction false} DecimalRoundTrip(n: nat)
    ensures DecimalValue(DecimalText(n)) == n
    decreases n
  {
    if n >= 10 {
      var s := DecimalText(n);
      DecimalRoundTrip(n / 10);
      assert s[..|s| - 1] == DecimalText(n / 10);
    }
  }

  /** Distinct ordinals never share a correlation id. */
  lemma DecimalTextInjective(a: nat, b: nat)
    ensures DecimalText(a) == DecimalText(b) ==> a == b
  {
    DecimalRoundTrip(a);
    DecimalRoundTrip(b);
  }
}

=== FILE: values.dfy ===
/** Dynamically typed values flowing through the frame pipeline, and the handful
    of Python semantics the stages rely on: truthiness, `==` between numbers of
    different kinds, `dict.get` with a default, and `dict.get(k) is not None`.
 */
module Values {

  datatype Option<+T> = None | Some(value: T)

  /** The exceptions a stage can raise; the pipeline has no handler, so any of
      them ends the stream. */
  datatype Error =
    | KeyError(key: string)
    | TypeError(what: string)
    | ValueError(what: string)
    | ZeroDivisionError

  datatype Result<+T> = Ok(value: T) | Err(error: Error)

  /** The two libcamera enumerations the focus stage issues. */
  datatype AfMode = Manual | Auto | Continuous
  datatype AfTrigger = Start | Cancel

  /** A control value or a metadata value. Floats are exact rationals here. */
  datatype Value =
    | Null
    | Bool(b: bool)
    | Int(i: int)
    | Real(r: real)
    | Str(s: string)
    | Tuple(items: seq<Value>)
    | AfModeValue(mode: AfMode)
    | AfTriggerValue(trigger: AfTrigger)

  /** A mapping from control or metadata name to value (a Python dict). */
  type Batch = map<string, Value>

  /** Python truthiness. Enumeration members are objects without a length or
      a boolean conversion, hence true. */
  predicate Truthy(v: Value)
  {
    match v
    case Null => false
    case Bool(b) => b
    case Int(i) => i != 0
    case Real(r) => r != 0.0
    case Str(s) => |s| > 0
    case Tuple(items) => |items| > 0
    case AfModeValue(_) => true
    case AfTriggerValue(_) => true
  }

  /** The numeric reading of a value: `bool` is a subclass of `int` in Python. */
  function AsNumber(v: Value): Option<real>
  {
    match v
    case Bool(b) => Some(if b then 1.0 else 0.0)
    case Int(i) => Some(i as real)
    case Real(r) => Some(r)
    case _ => None
  }

  /** The integer reading of a value, for the places that need an `int`. */
  function AsInt(v: Value): Option<int>
  {
    match v
    case Bool(b) => Some(if b then 1 else 0)
    case Int(i) => Some(i)
    case _ => None
  }

  /** Python `a == b`: numbers compare by value whatever their kind, every
      other pair structurally. */
  predicate PyEq(a: Value, b: Value)
  {
    if AsNumber(a).Some? && AsNumber(b).Some? then AsNumber(a).value == AsNumber(b).value
    else a == b
  }

  /** `m.get(k, default)` */
  function Get(m: Batch, k: string, default: Value): Value
  {
    if k in m then m[k] else default
  }

  /** `m.get(k, None) is not None` */
  predicate Given(m: Batch, k: string)
  {
    k in m && m[k] != Null
  }

  lemma PyEqIsEquivalence(a: Value, b: Value, c: Value)
    ensures PyEq(a, a)
    ensures PyEq(a, b) ==> PyEq(b, a)
    ensures PyEq(a, b) && PyEq(b, c) ==> PyEq(a, c)
  {
  }
}
